=== FILE: README.md ===
# box — a generic growable array, modelled in Dafny

`box.h` defines, through the `GEN_BOX_IMPL(T)` macro, one growable array
type per element type: a struct holding a buffer `data`, a live length `len`
and a `capacity`, with creation, destruction, push, pop, ordered remove,
get, set, a copy-out of the data, a length query and concatenation. Every
operation except destroy (which returns nothing) reports a `box_status` code. This project models that container
once, generic over the element type.

A box is `Boxes.Box(items, capacity, slots)`: `items` are the live elements
`data[0..len)`, `capacity` is the capacity field, and `slots` is how many
element slots the buffer really holds (0 while `data` is NULL). Dead slots
past `len` are never read by a correct operation, so their contents are
not tracked. A pointer that may be NULL (the box pointer, the handle, the
`T *item` output) is an `Option`; the caller's output cell is passed in and
handed back as it is afterwards. Each `calloc`/`realloc` the source checks
becomes a boolean saying whether that allocation fails.

Files:
- `status.dfy` — the status enum with its C codes (`BoxStatus`), and `Optional`.
- `box.dfy` — the state, the invariant `Valid`, the growth rule and every operation (`Boxes`).
- `buffer.dfy` — the element-moving loops over array buffers (`BoxBuffers`): remove's shift loop, proved equal to the functional `Boxes.ShiftLeft`, and the memcpy copies, proved to put the source at the target slot and leave every other slot alone.
- `properties.dfy` — properties across operations: growth ladder, invariant over any run of calls, LIFO order, shrink hysteresis, ordered removal, get/set/export/cat agreement (`BoxProperties`).
- `defects.dfy` — the failure paths where status and state diverge, kept as written, and the out-of-bounds read of remove (`BoxDefects`).

The three failure paths where the source's state and status diverge are
modelled as written, not repaired: a failed shrink in pop/remove still
removes the element and halves the capacity; a failed `cat` leaves the
capacity raised over the old buffer, after which a push can write past it;
and a `create_from` whose buffer allocation fails leaves the handle set to a
zero-filled header of capacity 0.

## Model

| member | source | states |
|---|---|---|
| `BoxStatus.Code` | box.h:31-40 | every status has a code below 8, and the code is 0 exactly for SUCCESS (what a caller's `if (status)` relies on) |
| `BoxStatus.FromCode` | box.h:31-40 | exactly the codes 0..7 denote a status, and 0 denotes SUCCESS |
| `BoxStatus.CodeRoundTrip` | box.h:31-40 | decoding a status's code gives the status back |
| `BoxStatus.FromCodeRoundTrip` | box.h:31-40 | encoding the status of a valid code gives the code back |
| `Boxes.Grow` | box.h:119-123 | a full box of capacity ≤ 32 doubles; above 32 the new capacity is ⌊cap·3/2⌋; for capacity ≥ 1, growth is strict and at most doubles (capacity 0 stays 0) |
| `Boxes.Create` | box.h:86-94 | a NULL handle becomes an empty, valid box of capacity 1; a set handle is refused with BOX_NOT_EMPTY and left alone; a failed allocation gives ALLOC_ERROR and a NULL handle |
| `Boxes.CreateFrom` | box.h:95-105 | a NULL handle becomes the valid box holding exactly `[v]` with capacity 1; BOX_NOT_EMPTY on a set handle; ALLOC_ERROR exactly when one of the two allocations fails, with a NULL handle when the header allocation fails and the handle set to the zero-filled capacity-0 header when only the buffer allocation fails |
| `Boxes.Destroy` | box.h:106-112 | the handle is NULL afterwards, whether or not it held a box |
| `Boxes.Push` | box.h:113-131 | NULL_PTR on a NULL box; ALLOC_ERROR exactly when the buffer is NULL and its first allocation fails; on a full box REALLOC_ERROR when the growing reallocation fails and SUCCESS when it succeeds; SUCCESS on a box with room; success appends exactly `v`; the capacity changes only when the box was full, and then to `Grow(capacity)`; after success the buffer holds `Grow(capacity)` slots when the box grew, one slot when it was first allocated, and its old slots otherwise; ALLOC_ERROR and REALLOC_ERROR leave contents and capacity unchanged; validity is preserved on every path |
| `Boxes.Reduce` | box.h:133-143 | the last element is dropped; the capacity halves exactly when the new length is below half of it and is otherwise untouched; when it halves, REALLOC_ERROR exactly when the shrinking reallocation fails; when it does not halve, SUCCESS; the buffer is never freed: it holds capacity / 2 slots after a successful halving and its old slots otherwise; validity is preserved |
| `Boxes.Pop` | box.h:144-151 | NULL_PTR for a NULL box or item pointer, BOX_EMPTY on an empty box, both without change; otherwise the item cell receives the last element and the contents lose exactly it, the capacity halves (REALLOC_ERROR exactly when that reallocation fails, with the buffer then holding capacity / 2 slots on success and its old slots on failure) iff len - 1 < capacity / 2, and is otherwise unchanged with SUCCESS and the same buffer; validity is preserved |
| `Boxes.ShiftLeft` | box.h:156-158 | slots before `index` keep their value, each slot from `index` to len-2 takes its successor's value, the last live slot keeps its own |
| `Boxes.Remove` | box.h:152-162 | NULL_PTR, then BOX_EMPTY (before any bounds check), then OUT_OF_BOUNDS for `index ≥ len`, each without change; otherwise the contents become `items[..index] + items[index+1..]`, and the shrink step acts as for pop: capacity halved (REALLOC_ERROR exactly when that reallocation fails, with the buffer then holding capacity / 2 slots on success and its old slots on failure) iff len - 1 < capacity / 2, otherwise unchanged with SUCCESS and the same buffer; validity is preserved |
| `Boxes.Get` | box.h:163-169 | never changes the box; the status is NULL_PTR, BOX_EMPTY, OUT_OF_BOUNDS or SUCCESS exactly under the checks in that order; on success the item cell holds `items[index]`, otherwise it is unchanged |
| `Boxes.Set` | box.h:170-176 | the same error order as get, without change on error; on success only slot `index` changes, to `v`, with length, capacity and buffer unchanged |
| `Boxes.Export` | box.h:177-183 | NULL_PTR for a NULL box, then DATA_NOT_EMPTY for a non-NULL target, neither touching the target; otherwise the target receives a copy equal to the live elements; the box is never changed |
| `Boxes.Length` | box.h:184-189 | NULL_PTR for a NULL box; an empty box is reported as BOX_EMPTY, not as length 0; otherwise the cell receives the length, at least 1 |
| `Boxes.Cat` | box.h:190-199 | NULL_PTR if either box is NULL; the destination's capacity becomes the sum of both capacities on success and on failure; success appends the source's elements after the destination's and keeps validity; REALLOC_ERROR leaves the elements and buffer as they were |
| `BoxBuffers.ShiftLeftLoop` | box.h:156-158 | the bounded shift loop produces exactly the shifted buffer `ShiftLeft` describes |
| `BoxBuffers.MemCopy` | box.h:181 | copying `src` element by element into a buffer at slot `at` puts exactly `src` in the slots starting at `at` and leaves every other slot as it was |
| `BoxBuffers.CatCopy` | box.h:196-197 | copying the source's elements into the enlarged destination buffer at slot dest.len leaves exactly dest followed by src in the first dest.len + src.len slots, which is what `Boxes.Cat` gives |
| `BoxProperties.GrowTo` | box.h:119-128 | repeated growth from a capacity reaches one that holds `n` elements and is never below the starting capacity, and, when growth is needed, less than twice `n` |
| `BoxProperties.GrowToCompose` | box.h:119-128 | growing in two stages ends on the same capacity as growing at once |
| `BoxProperties.PushCapacity` | box.h:119-128 | with allocation succeeding, a push on a valid box succeeds and its capacity is the next ladder rung that holds len + 1 |
| `BoxProperties.PushAllAppends` | box.h:113-131 | any sequence of successful pushes appends exactly those values, keeps the box valid and leaves the capacity on the growth ladder |
| `BoxProperties.PushIntoNewBox` | box.h:86-131 | pushing N values into a new box holds exactly them, the length query reports N (BOX_EMPTY for N = 0), and the capacity is the ladder rung for N |
| `BoxProperties.GrowthLadder` | box.h:119-123 | starting from capacity 1 the rungs double up to 64, then go 96, 144 |
| `BoxProperties.RunKeepsValid` | box.h:113-176 | after any sequence of push, pop, remove and set calls, on success or failure, `len ≤ capacity`, `capacity ≥ 1` and the buffer backs the capacity |
| `BoxProperties.RunKeepsBuffer` | box.h:113-176 | once a valid box's buffer is allocated, no sequence of push, pop, remove and set calls, on success or failure, leaves it NULL, and it keeps backing the capacity |
| `BoxProperties.PopToEmptyThenPush` | box.h:113-151 | popping a two-element box empty shrinks its buffer to one slot without freeing it, so a following push skips the first allocation and succeeds even when that allocation would fail |
| `BoxProperties.PushThenPop` | box.h:113-151 | on a valid box, when every allocation of the push succeeds, a pop right after a push returns the pushed value and restores the contents; if the push grew the box, the pop succeeds without shrinking it |
| `BoxProperties.LastInFirstOut` | box.h:113-151 | on a valid box, when every allocation succeeds, push x, push y, pop, pop yields y then x and the original contents |
| `BoxProperties.PopShrinksIff` | box.h:133-151 | a pop changes the capacity iff the new length is below half of it, and then to exactly half |
| `BoxProperties.RemoveShrinksIff` | box.h:152-162 | a remove changes the capacity iff the new length is below half of it, and then to exactly half; it reports REALLOC_ERROR exactly when that halving reallocation fails and SUCCESS otherwise |
| `BoxProperties.RemoveDropsOne` | box.h:152-162 | removal loses exactly one occurrence of the removed element and nothing else |
| `BoxProperties.RemoveExample` | box.h:152-162 | remove(1) on a box built by pushing 10, 20, 30, 40 yields 10, 30, 40 |
| `BoxProperties.GetAfterSet` | box.h:163-176 | after set(i, v), get(i) reads v and get at any other index reads what it read before |
| `BoxProperties.ExportAgreesWithGet` | box.h:163-183 | the exported copy has the box's length and holds at each index what get reads there |
| `BoxProperties.CatThenGet` | box.h:163-199 | after a cat whose reallocation succeeds, get reads the destination's elements first, then the source's, and nothing past their total length |
| `BoxProperties.CatExample` | box.h:190-199 | cat of boxes holding 1, 2 and 3, 4 holds 1, 2, 3, 4, reports length 4 and is valid |
| `BoxProperties.DestroyIdempotent` | box.h:106-112 | destroying twice equals destroying once, and the destroyed handle can be created again |
| `BoxDefects.ShiftAsWritten` | box.h:156-157 | the remove loop as written, over the whole buffer, keeps the buffer size when it stays in bounds |
| `BoxDefects.ShiftAsWrittenOverreads` | box.h:156-157 | the loop as written reads past the buffer exactly when the box is full; otherwise it shifts the live slots and also copies the dead slot len into len-1 |
| `BoxDefects.ShiftAsWrittenAgrees` | box.h:156-159 | when the loop as written stays in bounds, the live elements it leaves are those the bounded loop leaves |
| `BoxDefects.RemoveOnFullBoxOverreads` | box.h:152-157 | on every valid full box, remove as written reads past the buffer at any index |
| `BoxDefects.RemoveAfterCreateFromOverreads` | box.h:156-157 | the box `create_from(v)` builds is full, so remove(0) as written reads data[1] of a one-slot buffer, while the model's remove gives an empty box |
| `BoxDefects.CatFailureOverstatesCapacity` | box.h:192-194 | a failed cat on a box whose buffer matched its capacity reports REALLOC_ERROR and leaves a capacity above the buffer size |
| `BoxDefects.CatFailureThenPushOverflows` | box.h:192-194 | after such a failed cat, a push succeeds without growing and places a second element in a one-slot buffer |
| `BoxDefects.PopFailureStillRemoves` | box.h:135-139 | a pop whose shrinking reallocation fails reports REALLOC_ERROR, yet has handed out and removed the element and halved the capacity |
| `BoxDefects.CreateFromFailureLeavesHandle` | box.h:97-100 | when the buffer allocation of create_from fails, ALLOC_ERROR is reported but the handle holds a capacity-0 box, and a later create on it is refused with BOX_NOT_EMPTY |

## Left out

- `print_box_T` and `GEN_BOX_PRINT_IMPL` (box.h:201-209): formatted output through `printf`, a diagnostic aid only.
- The `TRY` macro (box.h:42-46): control-flow sugar for callers; the status codes it tests are modelled by `BoxStatus.Code`.
- `AUTO`, `AUTO_BOX`, `GEN_AUTO` and `GEN_AUTO_IMPL` (box.h:48-53, 72-78): a compiler cleanup attribute and a bare `free` wrapper.
- The macro-per-type expansion: one generic model stands for every instantiation.
- Real allocator behaviour: `calloc`, `realloc` and `memcpy` are reduced to their effect on the live elements, with one failure flag per checked allocation.
- The zeroing `memset` in `reduce_box_T`: it writes a slot that is dead afterwards, so dead slot contents are not tracked.
- `get_box_T_data` does not check its `calloc`; a failure there would make `memcpy` write through NULL. The model always produces the copy. For an empty box `calloc(0, …)` may return NULL, which the model does not distinguish from an empty copy.
- The pointer-to-handle arguments of create, create_from and destroy, the `len` output pointer of the length query, and the `T **data` target pointer of `get_box_T_data` (box.h:179), are dereferenced without a NULL check (destroy does check it); the model has only the handle and the target cell, never a NULL pointer to them.
- `Boxes.Grow`: the source computes `(unsigned)((float)cap * 1.5f)` above 32; the model uses `cap + cap/2`, which is the same value while 3·cap < 2^24 (cap ≤ 5,592,405); larger capacities, where float rounding can differ, are not modelled.
- Boxes.Push: on the capacity-0 header a failed `create_from` leaves, the source calls `realloc(data, 0)` (box.h:124), whose outcome the C standard leaves to the implementation (a NULL result after freeing `data`, or a non-NULL block). The model treats it as a successful reallocation to zero slots and does not tell a NULL `data` from a zero-slot block, so a later push on that header may report ALLOC_ERROR where the source skips the allocation at box.h:115-117.
- Unsigned 32-bit arithmetic: `len`, `capacity`, `index`, `cap * 2` and `capacity += src->capacity` are unbounded `nat`s, so wrap-around on overflow and the `(int)` casts of the remove loop are not modelled.
- `Boxes.Remove`: models the shift loop bounded to the live slots, not the loop as written that reads `data[len]`; the as-written loop is `BoxDefects.ShiftAsWritten`.

## Findings

| source | as written | input that shows it | evidently intended | confidence | as-written member | corrected member |
|---|---|---|---|---|---|---|
| box.h:156-157 | the remove loop runs `i` up to `len - 1` and reads slot `i + 1`, so its last read is `data[len]` | `create_from(v)` (len 1, a one-slot buffer), then `remove(0)`: the loop reads `data[1]`, past the allocation; the same holds for every full box | stop the loop at `len - 2`, reading only live slots; the contents are the same because slot `len - 1` is dropped by the shrink step | high (not executed) | `BoxDefects.ShiftAsWritten`, `BoxDefects.RemoveAfterCreateFromOverreads` | `Boxes.ShiftLeft`, `BoxBuffers.ShiftLeftLoop` |

=== FILE: box.dfy ===
/** The growable array ("box") of box.h, generic over the element type.

    A box is modelled by its live elements, its capacity and the number of
    element slots its buffer really holds:
      items    -- data[0 .. len), so len == |items|
      capacity -- the `capacity` field
      slots    -- the length of the allocated buffer; 0 when `data` is NULL
    The slots in [len, slots) are dead: no operation reads them, so their
    contents are not tracked.

    A pointer to a box (or a handle that may be NULL) is an Option<Box<T>>.
    Every operation returns its status together with the box as it is
    afterwards; allocation failure is an explicit boolean per allocation. */
module Boxes {
  import opened Optional
  import opened BoxStatus

  datatype Box<T> = Box(items: seq<T>, capacity: nat, slots: nat)

  /** The outcome of an operation that changes at most the box. */
  datatype Step<T> = Step(status: Status, box: Option<Box<T>>)

  /** The outcome of an operation that also writes through an output pointer:
      `out` is what the caller's output cell holds afterwards. */
  datatype Reply<T, V> = Reply(status: Status, box: Option<Box<T>>, out: V)

  /** The state every successful operation leaves: at least one slot of
      capacity, no more live elements than capacity, and a buffer that is
      either not yet allocated (a fresh empty box) or holds every slot the
      capacity promises. */
  predicate Valid<T>(b: Box<T>)
  {
    && 1 <= b.capacity
    && |b.items| <= b.capacity
    && (if b.slots == 0 then |b.items| == 0 && b.capacity == 1 else b.capacity <= b.slots)
  }

  /** Capacities up to this one double when full; larger ones grow by half. */
  const DoublingLimit: nat := 32

  /** The capacity push asks for when the box is full. The source computes
      `(unsigned)((float)cap * 1.5f)` above the limit; cap + cap / 2 is that
      value while 3 * cap < 2^24. */
  function Grow(cap: nat): (r: nat)
    ensures cap <= DoublingLimit ==> r == 2 * cap
    ensures DoublingLimit < cap ==> 2 * r <= 3 * cap < 2 * r + 2
    ensures 1 <= cap ==> cap < r <= 2 * cap
  {
    if cap > DoublingLimit then cap + cap / 2 else cap * 2
  }

  /** create_box_T: a new empty box with capacity 1 and no buffer yet. */
  function Create<T>(h: Option<Box<T>>, allocFails: bool): (r: Step<T>)
    ensures h.Some? ==> r == Step(BoxNotEmpty, h)
    ensures h.None? && allocFails ==> r == Step(AllocError, None)
    ensures r.status == Success <==> h.None? && !allocFails
    ensures r.status == Success ==>
      && r.box.Some?
      && r.box.value.items == []
      && r.box.value.capacity == 1
      && Valid(r.box.value)
  {
    if h.Some? then Step(BoxNotEmpty, h)
    else if allocFails then Step(AllocError, None)
    else Step(Success, Some(Box([], 1, 0)))
  }

  /** create_box_T_from: a box holding exactly `v`. When the header is
      allocated but the one-slot buffer is not, the handle is left pointing
      at the zero-filled header (len 0, capacity 0, data NULL). */
  function CreateFrom<T>(h: Option<Box<T>>, v: T, headerFails: bool, dataFails: bool): (r: Step<T>)
    ensures h.Some? ==> r == Step(BoxNotEmpty, h)
    ensures r.status == Success <==> h.None? && !headerFails && !dataFails
    ensures r.status == AllocError <==> h.None? && (headerFails || dataFails)
    ensures h.None? && headerFails ==> r == Step(AllocError, None)
    ensures h.None? && !headerFails && dataFails ==> r == Step(AllocError, Some(Box([], 0, 0)))
    ensures r.status == Success ==>
      && r.box.Some?
      && r.box.value.items == [v]
      && r.box.value.capacity == 1
      && Valid(r.box.value)
  {
    if h.Some? then Step(BoxNotEmpty, h)
    else if headerFails then Step(AllocError, None)
    else if dataFails then Step(AllocError, Some(Box([], 0, 0)))
    else Step(Success, Some(Box([v], 1, 1)))
  }

  /** destroy_box_T: frees the box if there is one; the handle ends NULL. */
  function Destroy<T>(h: Option<Box<T>>): (r: Option<Box<T>>)
    ensures r.None?
  {
    None
  }

  /** push_box_T: appends `v`, allocating the first slot when the buffer is
      still NULL and growing the buffer when the box is full. */
  function Push<T>(p: Option<Box<T>>, v: T, allocFails: bool, reallocFails: bool): (r: Step<T>)
    ensures p.None? ==> r == Step(NullPtr, p)
    ensures p.Some? ==> r.box.Some?
    ensures r.status == Success ==>
      && r.box.value.items == p.value.items + [v]
      && (r.box.value.capacity != p.value.capacity ==>
            |p.value.items| >= p.value.capacity && r.box.value.capacity == Grow(p.value.capacity))
      && (r.box.value.slots ==
            if |p.value.items| + 1 > p.value.capacity then Grow(p.value.capacity)
            else if p.value.slots == 0 then 1 else p.value.slots)
    ensures r.status == AllocError ==> p.Some? && p.value.slots == 0 && r.box == p
    ensures p.Some? && p.value.slots == 0 && allocFails ==> r.status == AllocError
    ensures p.Some? && !(p.value.slots == 0 && allocFails) && |p.value.items| + 1 > p.value.capacity ==>
      r.status == (if reallocFails then ReallocError else Success)
    ensures p.Some? && !(p.value.slots == 0 && allocFails) && |p.value.items| + 1 <= p.value.capacity ==>
      r.status == Success
    ensures r.status == ReallocError ==>
      && p.Some?
      && |p.value.items| >= p.value.capacity
      && r.box.value.items == p.value.items
      && r.box.value.capacity == p.value.capacity
    ensures p.Some? && Valid(p.value) ==> Valid(r.box.value)
  {
    if p.None? then Step(NullPtr, p)
    else
      var b := p.value;
      if b.slots == 0 && allocFails then Step(AllocError, p)
      else
        var slots := if b.slots == 0 then 1 else b.slots;
        if |b.items| + 1 > b.capacity then
          var newCapacity := Grow(b.capacity);
          if reallocFails then Step(ReallocError, Some(b.(slots := slots)))
          else Step(Success, Some(Box(b.items + [v], newCapacity, newCapacity)))
        else Step(Success, Some(Box(b.items + [v], b.capacity, slots)))
  }

  /** Whether the shrink step halves a box of `len` elements and the given
      capacity once it has dropped one of them. */
  predicate ShrinksOnRemoval(len: nat, capacity: nat)
  {
    len - 1 < capacity / 2
  }

  /** reduce_box_T, the shrink step shared by pop and remove: drops the last
      slot, then halves the capacity (and reallocates) when the remaining
      length is below half of it. The length and capacity are updated before
      the reallocation, so a failed reallocation still removes the element. */
  function Reduce<T>(b: Box<T>, reallocFails: bool): (r: Step<T>)
    requires |b.items| >= 1
    ensures r.box.Some?
    ensures r.box.value.items == b.items[..|b.items| - 1]
    ensures |r.box.value.items| < b.capacity / 2 ==> r.box.value.capacity == b.capacity / 2
    ensures |r.box.value.items| >= b.capacity / 2 ==> r.box.value == b.(items := r.box.value.items)
    ensures r.status == Success || (r.status == ReallocError && reallocFails)
    ensures ShrinksOnRemoval(|b.items|, b.capacity) ==> (r.status == ReallocError <==> reallocFails)
    ensures !ShrinksOnRemoval(|b.items|, b.capacity) ==> r.status == Success
    ensures r.box.value.slots ==
      if ShrinksOnRemoval(|b.items|, b.capacity) && !reallocFails then b.capacity / 2 else b.slots
    ensures Valid(b) ==> Valid(r.box.value)
  {
    var items := b.items[..|b.items| - 1];
    if |items| < b.capacity / 2 then
      var capacity := b.capacity / 2;
      if reallocFails then Step(ReallocError, Some(Box(items, capacity, b.slots)))
      else Step(Success, Some(Box(items, capacity, capacity)))
    else Step(Success, Some(b.(items := items)))
  }

  /** pop_box_T: writes the last element to `item` and shrinks. `item` is
      the caller's output cell, None when the pointer is NULL. */
  function Pop<T>(p: Option<Box<T>>, item: Option<T>, reallocFails: bool): (r: Reply<T, Option<T>>)
    ensures p.None? || item.None? ==> r == Reply(NullPtr, p, item)
    ensures p.Some? ==> r.box.Some?
    ensures p.Some? && item.Some? && |p.value.items| == 0 ==> r == Reply(BoxEmpty, p, item)
    ensures p.Some? && item.Some? && |p.value.items| > 0 ==>
      && (r.status == Success || (r.status == ReallocError && reallocFails))
      && r.out == Some(p.value.items[|p.value.items| - 1])
      && r.box.Some?
      && p.value.items == r.box.value.items + [r.out.value]
      && (ShrinksOnRemoval(|p.value.items|, p.value.capacity) ==>
            && r.box.value.capacity == p.value.capacity / 2
            && (r.status == ReallocError <==> reallocFails)
            && r.box.value.slots == (if reallocFails then p.value.slots else p.value.capacity / 2))
      && (!ShrinksOnRemoval(|p.value.items|, p.value.capacity) ==>
            r.status == Success && r.box.value.capacity == p.value.capacity && r.box.value.slots == p.value.slots)
    ensures p.Some? && Valid(p.value) ==> r.box.Some? && Valid(r.box.value)
  {
    if p.None? || item.None? then Reply(NullPtr, p, item)
    else
      var b := p.value;
      if |b.items| == 0 then Reply(BoxEmpty, p, item)
      else
        var last := b.items[|b.items| - 1];
        var step := Reduce(b, reallocFails);
        Reply(step.status, step.box, Some(last))
  }

  /** The buffer after remove's shift loop: each slot k with
      index <= k < len - 1 takes the value of slot k + 1, every other slot
      keeps its own, so the last live slot still holds its old value until
      the shrink step drops it. */
  function ShiftLeft<T>(s: seq<T>, index: nat): (r: seq<T>)
    requires index < |s|
    ensures |r| == |s|
    ensures forall k :: 0 <= k < index ==> r[k] == s[k]
    ensures forall k :: index <= k < |s| - 1 ==> r[k] == s[k + 1]
    ensures r[|s| - 1] == s[|s| - 1]
  {
    s[..index] + s[index + 1..] + [s[|s| - 1]]
  }

  /** remove_box_T: removes the element at `index`, keeping the order of the
      rest, then shrinks. Emptiness is checked before the bounds. */
  function Remove<T>(p: Option<Box<T>>, index: nat, reallocFails: bool): (r: Step<T>)
    ensures p.None? ==> r == Step(NullPtr, p)
    ensures p.Some? ==> r.box.Some?
    ensures p.Some? && |p.value.items| == 0 ==> r == Step(BoxEmpty, p)
    ensures p.Some? && 0 < |p.value.items| <= index ==> r == Step(OutOfBounds, p)
    ensures p.Some? && index < |p.value.items| ==>
      && (r.status == Success || (r.status == ReallocError && reallocFails))
      && r.box.Some?
      && r.box.value.items == p.value.items[..index] + p.value.items[index + 1..]
      && (ShrinksOnRemoval(|p.value.items|, p.value.capacity) ==>
            && r.box.value.capacity == p.value.capacity / 2
            && (r.status == ReallocError <==> reallocFails)
            && r.box.value.slots == (if reallocFails then p.value.slots else p.value.capacity / 2))
      && (!ShrinksOnRemoval(|p.value.items|, p.value.capacity) ==>
            r.status == Success && r.box.value.capacity == p.value.capacity && r.box.value.slots == p.value.slots)
    ensures p.Some? && Valid(p.value) ==> r.box.Some? && Valid(r.box.value)
  {
    if p.None? then Step(NullPtr, p)
    else
      var b := p.value;
      if |b.items| == 0 then Step(BoxEmpty, p)
      else if index > |b.items| - 1 then Step(OutOfBounds, p)
      else
        var shifted := ShiftLeft(b.items, index);
        assert shifted[..|shifted| - 1] == b.items[..index] + b.items[index + 1..];
        Reduce(b.(items := shifted), reallocFails)
  }

  /** get_box_T: copies the element at `index` into `item`. */
  function Get<T>(p: Option<Box<T>>, item: Option<T>, index: nat): (r: Reply<T, Option<T>>)
    ensures r.box == p
    ensures r.status == NullPtr <==> p.None? || item.None?
    ensures r.status == BoxEmpty <==> p.Some? && item.Some? && |p.value.items| == 0
    ensures r.status == OutOfBounds <==> p.Some? && item.Some? && 0 < |p.value.items| <= index
    ensures r.status == Success <==> p.Some? && item.Some? && index < |p.value.items|
    ensures r.status == Success ==> r.out == Some(p.value.items[index])
    ensures r.status != Success ==> r.out == item
  {
    if p.None? || item.None? then Reply(NullPtr, p, item)
    else
      var b := p.value;
      if |b.items| == 0 then Reply(BoxEmpty, p, item)
      else if index > |b.items| - 1 then Reply(OutOfBounds, p, item)
      else Reply(Success, p, Some(b.items[index]))
  }

  /** set_box_T: overwrites the element at `index` with `v`. */
  function Set<T>(p: Option<Box<T>>, v: T, index: nat): (r: Step<T>)
    ensures r.status == NullPtr <==> p.None?
    ensures r.status == BoxEmpty <==> p.Some? && |p.value.items| == 0
    ensures r.status == OutOfBounds <==> p.Some? && 0 < |p.value.items| <= index
    ensures r.status == Success <==> p.Some? && index < |p.value.items|
    ensures p.Some? ==> r.box.Some?
    ensures r.status != Success ==> r.box == p
    ensures r.status == Success ==>
      && r.box.Some?
      && Valid(r.box.value) == Valid(p.value)
      && |r.box.value.items| == |p.value.items|
      && r.box.value.items[index] == v
      && (forall k :: 0 <= k < |p.value.items| && k != index ==> r.box.value.items[k] == p.value.items[k])
      && r.box.value.capacity == p.value.capacity
      && r.box.value.slots == p.value.slots
  {
    if p.None? then Step(NullPtr, p)
    else
      var b := p.value;
      if |b.items| == 0 then Step(BoxEmpty, p)
      else if index > |b.items| - 1 then Step(OutOfBounds, p)
      else Step(Success, Some(b.(items := b.items[index := v])))
  }

  /** get_box_T_data: hands the caller a fresh copy of the live elements.
      `target` is the caller's `*data`; it must still be NULL. */
  function Export<T>(p: Option<Box<T>>, target: Option<seq<T>>): (r: Reply<T, Option<seq<T>>>)
    ensures r.box == p
    ensures r.status == NullPtr <==> p.None?
    ensures r.status == DataNotEmpty <==> p.Some? && target.Some?
    ensures r.status == Success <==> p.Some? && target.None?
    ensures r.status == Success ==> r.out == Some(p.value.items)
    ensures r.status != Success ==> r.out == target
  {
    if p.None? then Reply(NullPtr, p, target)
    else if target.Some? then Reply(DataNotEmpty, p, target)
    else Reply(Success, p, Some(p.value.items))
  }

  /** get_box_T_len: writes the length to `cell`, but reports an empty box as
      BOX_EMPTY instead of a length of zero. */
  function Length<T>(p: Option<Box<T>>, cell: nat): (r: Reply<T, nat>)
    ensures r.box == p
    ensures r.status == NullPtr <==> p.None?
    ensures r.status == BoxEmpty <==> p.Some? && |p.value.items| == 0
    ensures r.status == Success <==> p.Some? && |p.value.items| > 0
    ensures r.status == Success ==> r.out == |p.value.items| && r.out >= 1
    ensures r.status != Success ==> r.out == cell
  {
    if p.None? then Reply(NullPtr, p, cell)
    else if |p.value.items| == 0 then Reply(BoxEmpty, p, cell)
    else Reply(Success, p, |p.value.items|)
  }

  /** cat_box_T: appends the live elements of `src` to `dest`, growing the
      destination's capacity by the source's capacity. The capacity is
      raised before the reallocation, so a failed reallocation leaves it
      raised over the old buffer. The source is only read. */
  function Cat<T>(dest: Option<Box<T>>, src: Option<Box<T>>, reallocFails: bool): (r: Step<T>)
    ensures dest.None? || src.None? ==> r == Step(NullPtr, dest)
    ensures dest.Some? && src.Some? ==>
      && r.box.Some?
      && r.box.value.capacity == dest.value.capacity + src.value.capacity
      && (r.status == Success <==> !reallocFails)
      && (r.status == ReallocError <==> reallocFails)
    ensures r.status == Success ==>
      && r.box.value.items == dest.value.items + src.value.items
      && r.box.value.slots == r.box.value.capacity
    ensures r.status == ReallocError ==>
      && r.box.value.items == dest.value.items
      && r.box.value.slots == dest.value.slots
    ensures r.status == Success && Valid(dest.value) && Valid(src.value) ==> Valid(r.box.value)
  {
    if dest.None? || src.None? then Step(NullPtr, dest)
    else
      var d := dest.value;
      var capacity := d.capacity + src.value.capacity;
      if reallocFails then Step(ReallocError, Some(d.(capacity := capacity)))
      else Step(Success, Some(Box(d.items + src.value.items, capacity, capacity)))
  }
}

=== FILE: buffer.dfy ===
/** The element-moving loops of box.h written as loops over a buffer: the
    shift loop of remove is proved equal to `Boxes.ShiftLeft`, and the
    memcpy copies are proved to place their source at the target slot and
    leave every other slot alone. */
module BoxBuffers {
  import opened Boxes

  /** The shift loop of remove_box_T, bounded to the live slots: slot i
      takes slot i + 1 for i from `index` up to len - 2. */
  method ShiftLeftLoop<T>(s: seq<T>, index: nat) returns (r: seq<T>)
    requires index < |s|
    ensures r == ShiftLeft(s, index)
  {
    var data := new T[|s|](k requires 0 <= k < |s| => s[k]);
    var i := index;
    while i < |s| - 1
      invariant index <= i <= |s| - 1
      invariant forall k :: 0 <= k < index ==> data[k] == s[k]
      invariant forall k :: index <= k < i ==> data[k] == s[k + 1]
      invariant forall k :: i <= k < |s| ==> data[k] == s[k]
    {
      data[i] := data[i + 1];
      i := i + 1;
    }
    r := data[..];
    assert r == ShiftLeft(s, index);
  }

  /** memcpy of `src` into `buf` at slot `at`, one element at a time, as
      get_box_T_data copies the live elements into a fresh buffer at slot 0
      and cat_box_T copies the source's live elements into the enlarged
      destination buffer at slot dest->len. Slots outside the copied range
      keep their values. */
  method MemCopy<T>(buf: seq<T>, at: nat, src: seq<T>) returns (r: seq<T>)
    requires at + |src| <= |buf|
    ensures |r| == |buf|
    ensures r[..at] == buf[..at]
    ensures r[at..at + |src|] == src
    ensures r[at + |src|..] == buf[at + |src|..]
  {
    var data := new T[|buf|](k requires 0 <= k < |buf| => buf[k]);
    var i := 0;
    while i < |src|
      invariant 0 <= i <= |src|
      invariant forall k :: 0 <= k < at ==> data[k] == buf[k]
      invariant forall k :: 0 <= k < i ==> data[at + k] == src[k]
      invariant forall k :: at + i <= k < |buf| ==> data[k] == buf[k]
    {
      data[at + i] := src[i];
      i := i + 1;
    }
    r := data[..];
    assert forall k :: 0 <= k < |src| ==> r[at..at + |src|][k] == src[k];
  }

  /** Copying the source's live elements to the end of the destination's
      live elements in any buffer that holds the destination's live
      elements first leaves exactly the elements cat_box_T promises in the
      first dest.len + src.len slots. */
  method CatCopy<T>(buf: seq<T>, dest: seq<T>, src: seq<T>) returns (r: seq<T>)
    requires |dest| + |src| <= |buf|
    requires buf[..|dest|] == dest
    ensures |r| == |buf|
    ensures r[..|dest| + |src|] == dest + src
  {
    r := MemCopy(buf, |dest|, src);
    assert r[..|dest| + |src|] == r[..|dest|] + r[|dest|..|dest| + |src|];
  }
}

=== FILE: defects.dfy ===
/** The places where box.h does something other than what its callers are
    evidently promised, each modelled as written and exhibited on an input:
    - remove_box_T's shift loop reads data[len], one slot past the buffer
      whenever the box is full (box.h:156-157);
    - cat_box_T raises the capacity before a reallocation that may fail
      (box.h:192-194);
    - reduce_box_T drops the element and halves the capacity before a
      reallocation that may fail (box.h:135-139);
    - create_box_T_from leaves the handle set when the second allocation
      fails (box.h:97-100).
    The remove loop is corrected in `Boxes.ShiftLeft`; the other three are
    kept as written in `Boxes`. */
module BoxDefects {
  import opened Optional
  import opened BoxStatus
  import opened Boxes

  /** remove_box_T's loop as written, over the whole allocated buffer `buf`:
      for i from `i` while i < len, slot i takes slot i + 1. None when the
      loop reads a slot outside the buffer. */
  function ShiftAsWritten<T>(buf: seq<T>, i: nat, len: nat): (r: Option<seq<T>>)
    ensures r.Some? ==> |r.value| == |buf|
    decreases len - i
  {
    if i >= len then Some(buf)
    else if i + 1 >= |buf| then None
    else ShiftAsWritten(buf[i := buf[i + 1]], i + 1, len)
  }

  /** The loop as written stays inside the buffer exactly when the buffer
      has a spare slot past the live ones; then it shifts like the bounded
      loop, and additionally copies the dead slot len into slot len - 1. */
  lemma {:induction false} ShiftAsWrittenOverreads<T>(buf: seq<T>, i: nat, len: nat)
    requires i <= len <= |buf|
    ensures ShiftAsWritten(buf, i, len).None? <==> i < len == |buf|
    ensures len < |buf| ==>
      && (forall k :: i <= k < len ==> ShiftAsWritten(buf, i, len).value[k] == buf[k + 1])
      && (forall k :: 0 <= k < i ==> ShiftAsWritten(buf, i, len).value[k] == buf[k])
      && (forall k :: len <= k < |buf| ==> ShiftAsWritten(buf, i, len).value[k] == buf[k])
    decreases len - i
  {
    if i < len && i + 1 < |buf| {
      var next := buf[i := buf[i + 1]];
      ShiftAsWrittenOverreads(next, i + 1, len);
    }
  }

  /** Where the loop as written stays in bounds, the live elements it leaves
      are those the bounded loop of the model leaves. */
  lemma ShiftAsWrittenAgrees<T>(buf: seq<T>, index: nat, len: nat)
    requires index < len < |buf|
    ensures ShiftAsWritten(buf, index, len).Some?
    ensures ShiftAsWritten(buf, index, len).value[..len - 1] == ShiftLeft(buf[..len], index)[..len - 1]
  {
    ShiftAsWrittenOverreads(buf, index, len);
    var r := ShiftAsWritten(buf, index, len).value;
    var s := ShiftLeft(buf[..len], index);
    assert forall k :: 0 <= k < len - 1 ==> r[k] == s[k];
  }

  /** Every full box -- one with no slot past its live elements -- makes
      remove as written read past its buffer, at any index. */
  lemma RemoveOnFullBoxOverreads<T>(b: Box<T>, index: nat)
    requires Valid(b)
    requires index < |b.items| == b.slots
    ensures ShiftAsWritten(b.items, index, |b.items|).None?
  {
    ShiftAsWrittenOverreads(b.items, index, |b.items|);
  }

  /** The smallest instance: remove(0) on the box create_box_T_from(v)
      builds, whose one-slot buffer the loop reads past at data[1]. */
  lemma RemoveAfterCreateFromOverreads<T>(v: T)
    ensures var b := CreateFrom(None, v, false, false).box.value;
      && Valid(b)
      && |b.items| == b.slots == 1
      && ShiftAsWritten(b.items, 0, |b.items|).None?
      && Remove(Some(b), 0, false) == Step(Success, Some(Box([], 1, 1)))
  {
  }

  /** A failed cat_box_T leaves a box that claims more capacity than its
      buffer holds, whenever the buffer held exactly the capacity before
      (as after every successful operation). */
  lemma CatFailureOverstatesCapacity<T>(d: Box<T>, s: Box<T>)
    requires Valid(d) && Valid(s)
    requires d.slots <= d.capacity
    ensures var r := Cat(Some(d), Some(s), true);
      && r.status == ReallocError
      && r.box.value.slots < r.box.value.capacity
      && !Valid(r.box.value)
  {
  }

  /** After such a failed cat, a push that does not see the box as full
      writes its element past the end of the one-slot buffer. */
  lemma CatFailureThenPushOverflows<T>(x: T, y: T, z: T)
    ensures var d := Cat(Some(Box([x], 1, 1)), Some(Box([y], 1, 1)), true).box;
      var r := Push(d, z, false, false);
      && r.status == Success
      && r.box.value.items == [x, z]
      && r.box.value.slots == 1
      && |r.box.value.items| > r.box.value.slots
  {
  }

  /** A pop whose shrinking reallocation fails reports REALLOC_ERROR, yet
      has removed the element, handed it out and halved the capacity. */
  lemma PopFailureStillRemoves<T>(b: Box<T>, cell: T)
    requires Valid(b)
    requires 0 < |b.items| && |b.items| - 1 < b.capacity / 2
    ensures var r := Pop(Some(b), Some(cell), true);
      && r.status == ReallocError
      && r.out == Some(b.items[|b.items| - 1])
      && r.box.value.items == b.items[..|b.items| - 1]
      && r.box.value.capacity == b.capacity / 2
      && Valid(r.box.value)
  {
  }

  /** When create_box_T_from gets its header but not its buffer, it
      reports ALLOC_ERROR yet leaves the handle set to a box of capacity 0,
      which a later create on the same handle refuses as BOX_NOT_EMPTY. */
  lemma CreateFromFailureLeavesHandle<T>(v: T)
    ensures var r := CreateFrom(None, v, false, true);
      && r.status == AllocError
      && r.box.Some?
      && r.box.value.capacity == 0
      && !Valid(r.box.value)
      && Create(r.box, false).status == BoxNotEmpty
  {
  }
}

=== FILE: properties.dfy ===
/** Properties that relate several box operations: the growth ladder, the
    invariant over any run of operations, last-in-first-out order,
    shrink hysteresis, ordered removal, and the agreement of get, set,
    export, length and concatenation with one another. */
module BoxProperties {
  import opened Optional
  import opened BoxStatus
  import opened Boxes

  /** The capacity that repeated growth from `cap` reaches once it can hold
      `n` elements. */
  function GrowTo(cap: nat, n: nat): (r: nat)
    requires 1 <= cap
    ensures cap <= r && n <= r
    ensures cap < n ==> r < 2 * n
    decreases n - cap
  {
    if n <= cap then cap else GrowTo(Grow(cap), n)
  }

  /** Growing first to m and then to n >= m ends where growing to n does. */
  lemma {:induction false} GrowToCompose(cap: nat, m: nat, n: nat)
    requires 1 <= cap
    requires m <= n
    ensures GrowTo(GrowTo(cap, m), n) == GrowTo(cap, n)
    decreases m - cap
  {
    if m > cap {
      GrowToCompose(Grow(cap), m, n);
    }
  }

  /** One successful push moves the capacity one rung up the ladder exactly
      when the box was full. */
  lemma PushCapacity<T>(b: Box<T>, v: T)
    requires Valid(b)
    ensures Push(Some(b), v, false, false).status == Success
    ensures Push(Some(b), v, false, false).box.value.capacity == GrowTo(b.capacity, |b.items| + 1)
  {
    if |b.items| + 1 > b.capacity {
      assert GrowTo(b.capacity, |b.items| + 1) == GrowTo(Grow(b.capacity), |b.items| + 1);
    }
  }

  /** Pushes `vs` one after another with every allocation succeeding. */
  function PushAll<T>(b: Box<T>, vs: seq<T>): Box<T>
    decreases |vs|
  {
    if |vs| == 0 then b
    else PushAll(Push(Some(b), vs[0], false, false).box.value, vs[1..])
  }

  /** Pushing `vs` appends exactly `vs`, keeps the box valid, and leaves the
      capacity on the growth ladder: the first rung that holds every element. */
  lemma {:induction false} PushAllAppends<T>(b: Box<T>, vs: seq<T>)
    requires Valid(b)
    ensures Valid(PushAll(b, vs))
    ensures PushAll(b, vs).items == b.items + vs
    ensures PushAll(b, vs).capacity == GrowTo(b.capacity, |b.items| + |vs|)
    decreases |vs|
  {
    if |vs| == 0 {
      assert b.items + vs == b.items;
    } else {
      var b1 := Push(Some(b), vs[0], false, false).box.value;
      PushCapacity(b, vs[0]);
      PushAllAppends(b1, vs[1..]);
      assert b1.items + vs[1..] == b.items + vs;
      GrowToCompose(b.capacity, |b.items| + 1, |b.items| + |vs|);
    }
  }

  /** Pushing `vs` into a freshly created box holds exactly `vs`, reports
      their number as its length, and has the ladder capacity for it. */
  lemma PushIntoNewBox<T>(vs: seq<T>, cell: nat)
    ensures var b := PushAll(Create<T>(None, false).box.value, vs);
      && b.items == vs
      && b.capacity == GrowTo(1, |vs|)
      && Valid(b)
      && (|vs| > 0 ==> Length(Some(b), cell) == Reply(Success, Some(b), |vs|))
      && (|vs| == 0 ==> Length(Some(b), cell).status == BoxEmpty)
  {
    PushAllAppends(Create<T>(None, false).box.value, vs);
  }

  /** The first rungs of the ladder: doubling up to 64, then by half. */
  lemma GrowthLadder()
    ensures GrowTo(1, 33) == 64
    ensures GrowTo(1, 65) == 96
    ensures GrowTo(1, 100) == 144
  {
    assert GrowTo(1, 33) == 64 by {
      assert GrowTo(32, 33) == 64;
    }
    assert GrowTo(1, 65) == 96 by {
      assert GrowTo(32, 65) == GrowTo(64, 65) == 96;
    }
    assert GrowTo(1, 100) == 144 by {
      assert GrowTo(32, 100) == GrowTo(64, 100) == GrowTo(96, 100) == 144;
    }
  }

  /** One mutating call, with the outcome of each allocation it may make. */
  datatype Op<T> =
    | PushOp(v: T, allocFails: bool, reallocFails: bool)
    | PopOp(cell: T, reallocFails: bool)
    | RemoveOp(index: nat, reallocFails: bool)
    | SetOp(v: T, index: nat)

  /** The box after one call, whatever status it returned. */
  function Apply<T>(b: Box<T>, op: Op<T>): Box<T>
  {
    match op
    case PushOp(v, af, rf) => Push(Some(b), v, af, rf).box.value
    case PopOp(c, rf) => Pop(Some(b), Some(c), rf).box.value
    case RemoveOp(i, rf) => Remove(Some(b), i, rf).box.value
    case SetOp(v, i) => Set(Some(b), v, i).box.value
  }

  /** The box after a run of calls. */
  function Run<T>(b: Box<T>, ops: seq<Op<T>>): Box<T>
    decreases |ops|
  {
    if |ops| == 0 then b else Run(Apply(b, ops[0]), ops[1..])
  }

  /** Any run of push, pop, remove and set calls, on success or failure,
      keeps len <= capacity, capacity >= 1 and a buffer that backs every slot
      of capacity. */
  lemma {:induction false} RunKeepsValid<T>(b: Box<T>, ops: seq<Op<T>>)
    requires Valid(b)
    ensures Valid(Run(b, ops))
    decreases |ops|
  {
    if |ops| > 0 {
      RunKeepsValid(Apply(b, ops[0]), ops[1..]);
    }
  }

  /** Once a box's buffer is allocated it stays allocated: no run of push,
      pop, remove and set calls, on success or failure, leaves `data` NULL,
      so a later push never needs its first allocation again. */
  lemma {:induction false} RunKeepsBuffer<T>(b: Box<T>, ops: seq<Op<T>>)
    requires Valid(b)
    requires b.slots > 0
    ensures Run(b, ops).slots > 0
    ensures Run(b, ops).capacity <= Run(b, ops).slots
    decreases |ops|
  {
    if |ops| > 0 {
      RunKeepsBuffer(Apply(b, ops[0]), ops[1..]);
    }
  }

  /** Popping a two-element box empty shrinks its buffer to one slot but does
      not free it, so a push whose first allocation would fail still
      succeeds: the source skips that allocation for a non-NULL buffer. */
  lemma PopToEmptyThenPush(x: int, y: int, z: int, cell: int)
    ensures Pop(Pop(Some(Box([x, y], 2, 2)), Some(cell), false).box, Some(cell), false).box
      == Some(Box([], 1, 1))
    ensures Push(Some(Box([], 1, 1)), z, true, false) == Step(Success, Some(Box([z], 1, 1)))
  {
    assert [x, y][..1] == [x];
    assert Pop(Some(Box([x, y], 2, 2)), Some(cell), false).box == Some(Box([x], 2, 2));
    var empty: seq<int> := [];
    assert empty + [z] == [z];
  }

  /** A pop right after a push gives back the pushed value and the old
      contents; when that push had to grow the box, the pop does not shrink
      it again. */
  lemma PushThenPop<T>(b: Box<T>, v: T, cell: T, reallocFails: bool)
    requires Valid(b)
    ensures var pushed := Push(Some(b), v, false, false);
      var popped := Pop(pushed.box, Some(cell), reallocFails);
      && (popped.status == Success || reallocFails)
      && popped.out == Some(v)
      && popped.box.value.items == b.items
      && (|b.items| == b.capacity ==>
            popped.status == Success && popped.box.value.capacity == Grow(b.capacity))
  {
    var pushed := Push(Some(b), v, false, false);
    assert pushed.box.value.items == b.items + [v];
    if |b.items| == b.capacity {
      assert pushed.box.value.capacity == Grow(b.capacity);
    }
  }

  /** push(x); push(y); pop() == y; pop() == x. */
  lemma LastInFirstOut<T>(b: Box<T>, x: T, y: T, cell: T)
    requires Valid(b)
    ensures var b2 := Push(Push(Some(b), x, false, false).box, y, false, false).box;
      var first := Pop(b2, Some(cell), false);
      var second := Pop(first.box, Some(cell), false);
      && first.out == Some(y)
      && second.out == Some(x)
      && second.box.value.items == b.items
  {
    var b1 := Push(Some(b), x, false, false).box;
    PushThenPop(b1.value, y, cell, false);
    var first := Pop(Push(b1, y, false, false).box, Some(cell), false);
    assert first.box.value.items == b.items + [x];
  }

  /** The shrink step halves the capacity exactly when the remaining length
      is below half of it, and otherwise leaves the capacity alone. */
  lemma PopShrinksIff<T>(b: Box<T>, cell: T, reallocFails: bool)
    requires Valid(b)
    requires |b.items| > 0
    ensures var r := Pop(Some(b), Some(cell), reallocFails).box.value;
      && (r.capacity != b.capacity <==> |b.items| - 1 < b.capacity / 2)
      && (r.capacity == b.capacity / 2 || r.capacity == b.capacity)
  {
  }

  /** Remove shares the shrink step: it halves the capacity exactly when the
      remaining length is below half of it, reports REALLOC_ERROR exactly
      when that halving reallocation fails, and otherwise succeeds with the
      capacity unchanged. */
  lemma RemoveShrinksIff<T>(b: Box<T>, index: nat, reallocFails: bool)
    requires Valid(b)
    requires index < |b.items|
    ensures var r := Remove(Some(b), index, reallocFails);
      && (r.box.value.capacity != b.capacity <==> |b.items| - 1 < b.capacity / 2)
      && (r.box.value.capacity == b.capacity / 2 || r.box.value.capacity == b.capacity)
      && (r.status == ReallocError <==> reallocFails && |b.items| - 1 < b.capacity / 2)
      && (r.status == Success <==> !(reallocFails && |b.items| - 1 < b.capacity / 2))
  {
  }

  /** Ordered removal loses exactly the removed element. */
  lemma RemoveDropsOne<T>(b: Box<T>, index: nat, reallocFails: bool)
    requires index < |b.items|
    ensures var r := Remove(Some(b), index, reallocFails).box.value;
      multiset(r.items) + multiset{b.items[index]} == multiset(b.items)
  {
    assert b.items == b.items[..index] + [b.items[index]] + b.items[index + 1..];
  }

  /** Removing index 1 of [10, 20, 30, 40] gives [10, 30, 40]. */
  lemma RemoveExample()
    ensures var b := PushAll(Create<int>(None, false).box.value, [10, 20, 30, 40]);
      var r := Remove(Some(b), 1, false);
      && r.status == Success
      && r.box.value.items == [10, 30, 40]
  {
    PushAllAppends(Create<int>(None, false).box.value, [10, 20, 30, 40]);
    var b := PushAll(Create<int>(None, false).box.value, [10, 20, 30, 40]);
    assert b.items[..1] + b.items[2..] == [10, 30, 40];
  }

  /** After set(i, v), get(i) reads v and every other index reads what it
      read before. */
  lemma GetAfterSet<T>(b: Box<T>, v: T, i: nat, j: nat, cell: T)
    requires i < |b.items|
    ensures var s := Set(Some(b), v, i);
      && (j == i ==> Get(s.box, Some(cell), j).out == Some(v))
      && (j != i ==> Get(s.box, Some(cell), j) == Get(Some(b), Some(cell), j).(box := s.box))
  {
  }

  /** The exported copy holds, at every index, what get reads there. */
  lemma ExportAgreesWithGet<T>(b: Box<T>, cell: T)
    ensures var e := Export(Some(b), None);
      && e.status == Success
      && |e.out.value| == |b.items|
      && forall i :: 0 <= i < |e.out.value| ==> Get(Some(b), Some(cell), i).out == Some(e.out.value[i])
  {
  }

  /** After a successful concatenation, get reads the destination's old
      elements first and then the source's, in order. */
  lemma CatThenGet<T>(d: Box<T>, s: Box<T>, j: nat, cell: T)
    ensures var r := Cat(Some(d), Some(s), false);
      && (j < |d.items| ==> Get(r.box, Some(cell), j).out == Some(d.items[j]))
      && (j < |s.items| ==> Get(r.box, Some(cell), |d.items| + j).out == Some(s.items[j]))
      && (|d.items| + |s.items| <= j ==> Get(r.box, Some(cell), j).status != Success)
  {
  }

  /** cat([1, 2], [3, 4]) gives [1, 2, 3, 4] of length 4. */
  lemma CatExample(cell: nat)
    ensures var d := PushAll(Create<int>(None, false).box.value, [1, 2]);
      var s := PushAll(Create<int>(None, false).box.value, [3, 4]);
      var r := Cat(Some(d), Some(s), false);
      && r.status == Success
      && r.box.value.items == [1, 2, 3, 4]
      && Length(r.box, cell).out == 4
      && Valid(r.box.value)
  {
    PushAllAppends(Create<int>(None, false).box.value, [1, 2]);
    PushAllAppends(Create<int>(None, false).box.value, [3, 4]);
  }

  /** Destroying twice is the same as destroying once, and the destroyed
      handle can be created again. */
  lemma DestroyIdempotent<T>(h: Option<Box<T>>)
    ensures Destroy(Destroy(h)) == Destroy(h)
    ensures Create(Destroy(h), false).status == Success
  {
  }
}

=== FILE: status.dfy ===
/** A value that may be absent: the model's stand-in for a pointer that may be NULL. */
module Optional {

  datatype Option<+T> = None | Some(value: T)
}

/** The status codes every box operation returns, in the order of the C enum
    (SUCCESS is 0, so a caller's `if (status)` means "failed"). */
module BoxStatus {
  import opened Optional

  datatype Status =
    | Success
    | AllocError
    | ReallocError
    | NullPtr
    | BoxNotEmpty
    | BoxEmpty
    | OutOfBounds
    | DataNotEmpty

  /** The integer the C enum assigns to a status. */
  function Code(s: Status): (c: nat)
    ensures c < 8
    ensures c == 0 <==> s == Success
  {
    match s
    case Success => 0
    case AllocError => 1
    case ReallocError => 2
    case NullPtr => 3
    case BoxNotEmpty => 4
    case BoxEmpty => 5
    case OutOfBounds => 6
    case DataNotEmpty => 7
  }

  /** The status an integer denotes, if any. */
  function FromCode(c: nat): (r: Option<Status>)
    ensures r.Some? <==> c < 8
    ensures r == Some(Success) <==> c == 0
  {
    if c == 0 then Some(Success)
    else if c == 1 then Some(AllocError)
    else if c == 2 then Some(ReallocError)
    else if c == 3 then Some(NullPtr)
    else if c == 4 then Some(BoxNotEmpty)
    else if c == 5 then Some(BoxEmpty)
    else if c == 6 then Some(OutOfBounds)
    else if c == 7 then Some(DataNotEmpty)
    else None
  }

  /** Every status has its own code, and the code gives the status back. */
  lemma CodeRoundTrip(s: Status)
    ensures FromCode(Code(s)) == Some(s)
  {
  }

  /** Every code of the enum names exactly one status. */
  lemma FromCodeRoundTrip(c: nat)
    requires c < 8
    ensures Code(FromCode(c).value) == c
  {
  }
}
